=== FILE: README.md ===
# Credential-store model of mellow-auth-kit

This project is a Dafny model of the authentication core of mellow-auth-kit. It covers two sides:

- **The server (`server.js`).** The store holds the users array. Each of the five endpoints loads it unless a required field is missing (for the Google callback: unless the code is absent, the exchange fails or the profile has no email), and answers. Login never changes it. The other four change at most one record, or append one, and call `saveUsers` only on the path that makes that change. Each endpoint is modelled as a pure transition from (store, request, environment) to (store to save, answer). The endpoints are signup, login, forgot-password, reset-password and the Google OAuth callback.
- **The client's decision logic.** `handleApiResponse` and `getApiBaseUrl` come from `src/services/authService.ts`. The ordered validators and handler effects come from the reset-password page and the signup form.

The environment (`Server.Env`) supplies everything the handlers cannot compute themselves:

- the clock, in seconds;
- the salt bcrypt picks;
- the 32 bytes `crypto.randomBytes(32)` returns;
- `Faults`, which says which library call fails: the load, a bcrypt call, the synchronous `crypto.randomBytes` (which throws rather than rejects), or the save. Any such failure lands in the endpoint's catch-all, which answers 500 or redirects with `oauth_error`.

Abstractions:

- **bcrypt digests** are symbolic (`Crypto.Digest`). The only observation is `Verify`, and `Verify(pw, Hash(pw', salt))` holds exactly when `pw == pw'`.
- **JWTs** are their claims (`SessionToken(userId, issuedAt, expiresAt)`), with a one-hour lifetime.
- **Reset tokens** are the hex encoding of the random bytes. The encoding is modelled exactly and proved one-to-one.
- **The Google exchange** is an input `Exchange`: either `ExchangeFailed`, or the userinfo `email` and `id`.
- **`JSON.parse`** on the client is an input function. The client handlers are modelled as the ordered list of effects they perform: toasts, the busy flag, navigation and API calls.

Modules: `Wrappers`, `Text`, `Find`, `Crypto`, `Users`, `Server`, `ServerProofs`, `ScenarioProofs`, `AuthService`, `Forms`, `ResetPasswordPage`, `SignupForm` and `EndToEnd`. There is one module per file.

In three places the code does something other than its comments or the documented behaviour suggest, and the model follows the code:

- **A Google-only record that tries to log in by password gets 500 "Server error", not 401.** The record has no `passwordHash`, so `bcrypt.compare` rejects and the catch-all answers.
- **The client shows the user only `Error: <status> <statusText>`, never the server's JSON `error` text.** The nested `try`/`catch` in `handleApiResponse` rethrows every inner error from its outer `catch`. The comments there suggest the server's message was meant to surface.
- **The callback's `res.status(400).redirect(...)` is a plain redirect.** Express's `redirect` sets the status to 302 itself, so the model records only where the browser is sent.

## Model

| member | source | states |
|---|---|---|
| Text.LocalPart | server.js:84 | `email.split('@')[0]` is a prefix of the email with no '@'. It stops at the first '@' when there is one and is the whole email otherwise. |
| Text.Includes | src/services/authService.ts:20 | `includes` is true exactly when the needle occurs at some offset of the hostname. |
| Text.DecimalString | src/services/authService.ts:43 | A number in a template literal renders as the decimal digits that denote it, with no leading zero. |
| Text.HexEncode | server.js:165 | `toString('hex')` gives two lower-case hex digits per byte. |
| Text.HexRoundTrip | server.js:165 | Decoding the hex text of a byte string gives the bytes back. |
| Crypto.Hash | server.js:79 | A fresh digest uses cost factor 10 and accepts the password it was made from. |
| Crypto.VerifyHash | server.js:124 | `bcrypt.compare` accepts a candidate exactly when it equals the hashed password, whatever the salt. |
| Crypto.Sign | server.js:131-135 | The session token names the given user id and expires one hour after issue. |
| Crypto.ResetToken | server.js:165 | `crypto.randomBytes(32).toString('hex')` is a non-empty token of exactly 64 lower-case hex digits. |
| Crypto.ResetTokenInjective | server.js:165 | Different random draws give different 64-digit hex reset tokens. |
| Find.First | server.js:116 | `find` returns the first index that satisfies the predicate, or none when no element does. |
| Users.FindByEmail | server.js:116 | The lookup returns the first record with the email. It returns none exactly when no record has that email, which is `users.some` being false. |
| Users.FindLiveToken | server.js:202-206 | The lookup returns the first record that holds the token with an expiry strictly after now. It returns none exactly when no record does. |
| Server.DisplayName | server.js:84 | A sent, non-empty name is kept. Otherwise the name is the text of the email before its first '@', or the whole email when it has no '@'. |
| Server.Signup | server.js:61-100 | Any answer but 201 leaves the store as loaded. A 201 keeps every earlier record and adds exactly one. |
| Server.Login | server.js:103-146 | Login never writes. It answers 200, 400, 401 or 500, and an answer carries a token exactly when it is a 200. |
| Server.WithResetToken | server.js:171-172 | The record gets the token and an expiry one hour after now together. Its email, name, digest and Google id are kept. |
| Server.ForgotPassword | server.js:149-186 | The number of records never changes. The answer is 200, 400 or 500. |
| Server.WithNewPassword | server.js:217-219 | The record gets the new digest and loses both token fields together. Its email, name and Google id are kept. |
| Server.ResetPassword | server.js:189-230 | Any answer but 200 leaves the store as loaded, and the number of records never changes. |
| Server.GoogleCallback | server.js:249-318 | Every error redirect leaves the store as loaded. |
| Server.Reconcile | server.js:289-303 | When the first record for the email is already linked to Google, the store is returned unchanged. |
| Server.ErrorLocation | server.js:254 | Every error redirect goes to `/login?error=...`. |
| ServerProofs.SignupRequiresCredentials | server.js:66-68 | A missing or empty email or password gives 400 "Email and password are required", and the store is unchanged. |
| ServerProofs.SignupRejectsTakenEmail | server.js:74-76 | An email already in the store gives 409 "User already exists", and nothing is added. |
| ServerProofs.SignupSucceedsIff | server.js:61-100 | Signup answers 201 exactly when both fields are present, the email is new and no library call fails. |
| ServerProofs.SignupAppendsOneRecord | server.js:79-92 | A success appends one record with the email, the display name and a digest that accepts exactly the password. The record has no Google id and no reset token, and earlier records are untouched. |
| ServerProofs.SignupNameDefault | server.js:84 | Without a name, the stored name is the text before the first '@', or the whole email when it has no '@'. |
| ServerProofs.LoginRequiresCredentials | server.js:108-110 | A missing or empty email or password gives 400 "Email and password are required". |
| ServerProofs.LoginSucceedsIff | server.js:116-141 | Login succeeds exactly when the record found for the email has a digest that accepts the password. The token's user id is that email and it expires one hour after now. |
| ServerProofs.LoginUnknownEmailLikeWrongPassword | server.js:119-128 | An unknown email and a wrong password get the identical 401 "Invalid email or password". |
| ServerProofs.LoginBcryptFailure | server.js:124 | When `bcrypt.compare` fails for a known email, the answer is the 500 "Server error". |
| ServerProofs.LoginWithoutPasswordHash | server.js:124 | A record without a password digest never logs in by password. It ends in the 500 catch-all. |
| ServerProofs.ForgotPasswordRequiresEmail | server.js:154-156 | A missing or empty email gives 400 "Email is required", and the store is unchanged. |
| ServerProofs.ForgotPasswordAnswersAlike | server.js:162-181 | When writing the users file does not fail, the answer does not depend on the store. When, in addition, reading the users file and `crypto.randomBytes` do not fail, any present email gets 200 "Reset email sent", whether or not it is known. |
| ServerProofs.ForgotPasswordUnknownEmail | server.js:170 | An unknown email leaves the store unchanged. |
| ServerProofs.ForgotPasswordIssuesToken | server.js:162-173 | For a known email only the first matching record changes. Its token and expiry (now + 1 h) are set together and replace any earlier pair. Its email, name, digest and Google id stay. |
| ServerProofs.ResetRequiresFields | server.js:194-196 | A missing or empty token or password gives 400 "Token and password are required", and the store is unchanged. |
| ServerProofs.ResetPasswordSucceedsIff | server.js:194-222 | A reset succeeds exactly when both fields are present, some record holds the token with an expiry strictly after now, and no library call fails. |
| ServerProofs.ResetPasswordEffect | server.js:214-222 | A success changes only the record holding the live token. Its digest then accepts exactly the new password and both token fields are cleared. Its email, name and Google id stay. |
| ServerProofs.ResetRejectsUnknownToken | server.js:209-211 | A token that no record holds gives 400 "Invalid or expired token", and the store is unchanged. |
| ServerProofs.ResetRejectsExpiredToken | server.js:202-211 | When no two records hold the same reset token, a token at or past its expiry gets the same answer as an unknown token, because the comparison is strict. |
| ServerProofs.ResetConsumesToken | server.js:217-219 | When no two records hold the same reset token, no record holds the token after a successful reset. |
| ServerProofs.ResetIsSingleUse | server.js:202-222 | When no two records hold the same reset token, presenting a redeemed token again fails and changes nothing. |
| ServerProofs.CallbackErrorExits | server.js:253-283 | A missing code redirects to `no_code`, a failed exchange to `oauth_error` and a userinfo result without an email to `no_email`. The store is untouched in all three cases. |
| ServerProofs.CallbackFindOrCreate | server.js:288-313 | An unseen email gets a new record with the userinfo id as its Google id (absent when the userinfo has none) and no password. An unlinked record gets linked and a linked one is left alone. Every success redirects with a token for the email. |
| ServerProofs.CallbackNeverOverwritesGoogleId | server.js:299-303 | A record already linked to Google is never modified by the callback. |
| ServerProofs.SignupKeepsWellformed | server.js:74-92 | Signup keeps emails unique, reset token and expiry paired, and reset tokens distinct. |
| ServerProofs.ForgotPasswordKeepsWellformed | server.js:165-173 | Forgot-password keeps emails unique and token with expiry paired. With a fresh token it also keeps reset tokens distinct. |
| ServerProofs.ResetPasswordKeepsWellformed | server.js:214-222 | Reset keeps all three store invariants. |
| ServerProofs.GoogleCallbackKeepsWellformed | server.js:288-303 | Find-or-create never duplicates an email and keeps the other invariants. |
| ScenarioProofs.SignupThenLogin | server.js:61-146 | After a signup, the same credentials log in with a token for the email and any other password gets 401. |
| ScenarioProofs.ForgotThenReset | server.js:149-230 | A token issued for a known email is redeemable before expiry. Afterwards the new password logs in, the old one gets 401, and the token is refused. |
| ScenarioProofs.RepeatedGoogleLogin | server.js:288-303 | Two Google sign-ins for a new email create one record and then reuse it, whatever the userinfo id, including none. |
| ScenarioProofs.GoogleLinkKeepsPassword | server.js:299-302 | Linking Google to a password account keeps password login working. |
| AuthService.ThrowParsedError | src/services/authService.ts:34-37 | The inner `try` of the error path always throws. |
| AuthService.ThrowRawError | src/services/authService.ts:38-45 | The inner `catch` always throws. |
| AuthService.HandleApiResponse | src/services/authService.ts:29-59 | It throws exactly when the status is not 2xx, and the message is then always `Error: <status> <statusText>`. A 2xx answer gives the parsed body, or `{success: true}` when the body is empty, unreadable or not JSON. |
| AuthService.ServerMessageIsThrownThenReplaced | src/services/authService.ts:36-47 | The server's `error` text is thrown by the inner `try`, but both catches replace it: the inner `catch` rethrows `Error: ` followed by the raw body, and the outer `catch` rethrows the status line. |
| AuthService.ErrorIgnoresBody | src/services/authService.ts:30-48 | Two failed responses with the same status line give the same error, whatever their bodies. |
| AuthService.GetApiBaseUrl | src/services/authService.ts:18-26 | The base URL is `http://localhost:5000` exactly when the hostname is `localhost` or contains `lovableproject.com`, and empty otherwise. |
| Forms.FirstFailure | src/pages/ResetPassword.tsx:35-48 | Checks run in order. There is no message exactly when every check passes, and otherwise the message is the one of the first failing check. |
| ResetPasswordPage.SettledTokenState | src/pages/ResetPassword.tsx:17-30 | The token check settles on valid exactly when the `token` parameter is present and non-empty. There is no backend check. |
| ResetPasswordPage.Validate | src/pages/ResetPassword.tsx:35-48 | The input passes exactly when the password is non-empty, equals the confirmation and has at least 8 characters. |
| ResetPasswordPage.ValidateIsFirstFailure | src/pages/ResetPassword.tsx:35-48 | The early returns report the first failing check of empty, mismatch and length. Each message appears exactly when its check is the first to fail. |
| ResetPasswordPage.Submit | src/pages/ResetPassword.tsx:32-58 | No path calls the API. Only valid input sets the page busy and navigates to "/". Invalid input only shows its message. The page ends idle. |
| SignupForm.Validate | src/components/auth/SignupForm.tsx:20-28 | The input passes exactly when all four fields are non-empty and the passwords match. There is no length rule. |
| SignupForm.ValidateIsFirstFailure | src/components/auth/SignupForm.tsx:20-28 | The early returns report the first failing check. "Passwords do not match" appears exactly when every field is filled but the passwords differ. |
| SignupForm.HandleSignup | src/components/auth/SignupForm.tsx:17-41 | Whether `signUp` succeeds or fails, the form ends idle. |
| SignupForm.SignUpCalledIffValid | src/components/auth/SignupForm.tsx:20-40 | `signUp` is called once, with exactly (name, email, password), exactly when validation passes. The form is busy during the call. Invalid input only shows its message. |
| SignupForm.NoMinimumLength | src/components/auth/SignupForm.tsx:20-28 | Any non-empty matching password is accepted, even a one-character one. |
| EndToEnd.FormNameSkipsServerDefault | src/components/auth/SignupForm.tsx:34 | An account created from the form stores the name the user typed. The server's local-part default is never used. |
| EndToEnd.ConflictShowsStatusLine | src/components/auth/SignupForm.tsx:30-40 | For a taken email the server answers 409 "User already exists", but the form only shows `Error: 409 <statusText>`, whatever body was sent. |
| EndToEnd.PageTrustsAnyToken | src/pages/ResetPassword.tsx:19-30 | The reset page treats a non-empty token as valid even when the server would refuse it. |

## Left out

- **File persistence.** `loadUsers`/`saveUsers` (server.js:32-56) are left out: reading and writing `users.json`, creating it on ENOENT, and JSON serialisation of the `Date` expiry. The store is an in-memory sequence, and a failing read or write is a fault. A failed write is taken to leave the saved store unchanged; a partly written file is not modelled.
- **Concurrency.** One request runs at a time, so the lost update between interleaved handlers is not modelled.
- **bcrypt internals.** The salt format, the cost computation and the truncation of inputs to 72 bytes are not modelled. The digest is symbolic.
- **JWT signing.** The secret and signing are left out, and so is the string form of the token in the dashboard redirect URL. Only the claims are modelled.
- **Randomness.** The reset token's bytes are an input. A fresh token is a lemma hypothesis (`TokenUnused`); collision resistance is not proved.
- **Clock.** `Date.setHours(getHours() + 1)` is taken as now + 3600 seconds. Local-time and DST effects are not modelled, and neither is an expiry string that does not parse as a date.
- **Clock resolution.** The reset expiry is a `Date` compared strictly at millisecond resolution (server.js:205). The model's `Time` is whole seconds, shared with the JWT's second-resolution claims, so expiries that differ from now by less than a second are not distinguished.
- **Logging.** Console output is not modelled (server.js:42, 51, 53, 97, 143, 176-177, 183, 227, 315). This includes the line that prints the reset token (server.js:177), which is the only way the token leaves the server in this code.
- **Google calls.** The HTTP calls to Google and the consent-URL route `GET /auth/google` (server.js:235-246) are left out. Their combined result is the `Exchange` input.
- **Express.** The helmet, cors, body-parser and static-file middleware are left out, and so is the status the callback sets before redirecting.
- **Request fields** are optional strings. Non-string JSON values in a request body are not modelled.
- **AuthService.ThrowParsedError:** a truthy `error` member that is not a string is treated like a missing one. The message it would carry is discarded by the outer `catch` anyway.
- **ResetPasswordPage.Validate:** the length rule counts Unicode scalar values, whereas JavaScript's `length` counts UTF-16 code units. The two differ for characters outside the Basic Multilingual Plane.
- **SignupForm.HandleSignup:** every thrown value in the model is an `Error`, so the `"Failed to create account"` fallback for non-`Error` throws is not modelled.
- **Client wrappers.** The fetch wrappers `signUp`, `login`, `forgotPassword`, `resetPassword` and `googleLogin` beyond `handleApiResponse` are left out, and so are `localStorage` and the unused `logUsers`.
- **UI glue.** React rendering, toast styling and the `setTimeout` delays are left out. A timer's effects appear in order, after the effects that precede it. `LoginForm`, `ForgotPassword`, `NotFound` and `GoogleAuthButton` hold only a presence check or a prefix test, so they are not modelled.

=== FILE: auth_service.dfy ===
/** The client's API helpers: choosing the API origin and turning a fetch response into a value or an error. */
module AuthService {
  import opened Wrappers
  import opened Text

  /** A value `JSON.parse` can produce; object members keep their textual order. */
  datatype Json =
    | JNull
    | JBool(b: bool)
    | JNumber(n: int)
    | JString(str: string)
    | JArray(items: seq<Json>)
    | JObject(members: seq<(string, Json)>)

  /** `JSON.parse`, supplied from outside the model: `None` where it throws a SyntaxError. */
  type Parser = string -> Option<Json>

  /**
   * What `fetch` resolved to: the status line, and what `response.text()`
   * yields (`None` when reading the body rejects).
   */
  datatype HttpResponse = HttpResponse(status: nat, statusText: string, body: Option<string>) {

    /** `response.ok`: the status is in the 2xx range. */
    predicate Ok() {
      200 <= status <= 299
    }
  }

  /** `{ success: true }` */
  const SuccessTrue := JObject([("success", JBool(true))])

  /** `Error: ${response.status} ${response.statusText}` */
  function StatusMessage(r: HttpResponse): string {
    "Error: " + DecimalString(r.status) + " " + r.statusText
  }

  /** The value `JSON.parse` keeps for member `key`: the last one written. */
  function Member(members: seq<(string, Json)>, key: string): Option<Json>
    decreases |members|
  {
    if |members| == 0 then None
    else if members[|members| - 1].0 == key then Some(members[|members| - 1].1)
    else Member(members[..|members| - 1], key)
  }

  /** `errorData.error` when it is a non-empty string. */
  function ErrorMember(data: Json): Option<string> {
    match data
    case JObject(members) =>
      (match Member(members, "error")
       case Some(JString(m)) => if m != "" then Some(m) else None
       case _ => None)
    case _ => None
  }

  /**
   * The inner `try` of the error path: parse the body and throw its `error`
   * member, or the status line. It never completes normally: a body that does
   * not parse throws a SyntaxError, a `null` body a TypeError.
   */
  function ThrowParsedError(text: string, parse: Parser, r: HttpResponse): (c: Completion<Json>)
    ensures c.Throw?
  {
    match parse(text)
    case None => Throw("Unexpected token in JSON")
    case Some(JNull) => Throw("Cannot read properties of null (reading 'error')")
    case Some(data) => Throw(ErrorMember(data).GetOr(StatusMessage(r)))
  }

  /** The inner `catch`: throw the raw body text, or the status line when the body is empty. */
  function ThrowRawError(text: string, r: HttpResponse): (c: Completion<Json>)
    ensures c.Throw?
  {
    if text != "" then Throw("Error: " + text) else Throw(StatusMessage(r))
  }

  /** The `try` body of the success path: an empty body or the parsed body. */
  function ParseSuccessBody(r: HttpResponse, parse: Parser): Completion<Json> {
    match r.body
    case None => Throw("Failed to read response body")
    case Some(text) =>
      if text == "" then Normal(SuccessTrue)
      else match parse(text)
        case None => Throw("Unexpected token in JSON")
        case Some(data) => Normal(data)
  }

  /**
   * `handleApiResponse`. On a non-2xx status every inner throw lands in the
   * outer `catch`, which rethrows the status line, so the server's own error
   * text never reaches the caller. On a 2xx status nothing is thrown.
   */
  function HandleApiResponse(r: HttpResponse, parse: Parser): (c: Completion<Json>)
    ensures c.Throw? <==> !r.Ok()
    ensures !r.Ok() ==> c == Throw(StatusMessage(r))
    ensures r.Ok() && r.body == Some("") ==> c == Normal(SuccessTrue)
    ensures r.Ok() && r.body.Some? && r.body.value != "" && parse(r.body.value).Some? ==>
      c == Normal(parse(r.body.value).value)
    ensures r.Ok() && r.body.Some? && r.body.value != "" && parse(r.body.value).None? ==> c == Normal(SuccessTrue)
    ensures r.Ok() && r.body.None? ==> c == Normal(SuccessTrue)
  {
    if !r.Ok() then
      var attempt :=
        match r.body
        case None => Throw("Failed to read response body")
        case Some(text) => ThrowParsedError(text, parse, r).Catch(_ => ThrowRawError(text, r));
      attempt.Catch(_ => Throw(StatusMessage(r)))
    else
      ParseSuccessBody(r, parse).Catch(_ => Normal(SuccessTrue))
  }

  /**
   * The inner `try` does throw the server's `error` text, but both catches
   * replace it: the inner `catch` rethrows the raw body text, and the outer
   * `catch` rethrows the status line.
   */
  lemma ServerMessageIsThrownThenReplaced(r: HttpResponse, parse: Parser, m: string)
    requires !r.Ok() && r.body.Some? && m != ""
    requires parse(r.body.value) == Some(JObject([("error", JString(m))]))
    ensures ThrowParsedError(r.body.value, parse, r) == Throw(m)
    ensures r.body.value != "" ==>
      ThrowParsedError(r.body.value, parse, r).Catch(_ => ThrowRawError(r.body.value, r)) == Throw("Error: " + r.body.value)
    ensures HandleApiResponse(r, parse) == Throw(StatusMessage(r))
  {
  }

  /** Two failed responses with the same status line fail alike, whatever their bodies. */
  lemma ErrorIgnoresBody(r1: HttpResponse, r2: HttpResponse, parse1: Parser, parse2: Parser)
    requires !r1.Ok() && r1.status == r2.status && r1.statusText == r2.statusText
    ensures HandleApiResponse(r1, parse1) == HandleApiResponse(r2, parse2)
  {
  }

  /** The API origin used in development and on the preview host. */
  const DevApiBaseUrl := "http://localhost:5000"

  /** `getApiBaseUrl`: the development origin on localhost or a preview host, else same-origin. */
  function GetApiBaseUrl(hostname: string): (url: string)
    ensures url == DevApiBaseUrl <==>
      hostname == "localhost" || exists i: nat :: OccursAt(hostname, "lovableproject.com", i)
    ensures url != DevApiBaseUrl ==> url == ""
  {
    if hostname == "localhost" || Includes(hostname, "lovableproject.com") then DevApiBaseUrl else ""
  }
}

=== FILE: crypto.dfy ===
/**
 * The cryptographic collaborators of the server, kept abstract: bcrypt
 * password digests, signed session tokens (JWT) and reset tokens drawn from
 * `crypto.randomBytes`.
 */
module Crypto {
  import opened Text

  /** Seconds since the epoch; the source's `Date` values and JWT times. */
  type Time = int

  /** The cost factor the server passes to `bcrypt.hash`. */
  const BcryptRounds: nat := 10

  /** The per-call random salt bcrypt draws; supplied from outside the model. */
  type Salt = nat

  /**
   * A bcrypt digest, kept symbolic. Nothing in the model reads `preimage`
   * except `Verify`, so the digest behaves as an ideal one-way function whose
   * only observable is `bcrypt.compare`.
   */
  datatype Digest = Digest(rounds: nat, salt: Salt, preimage: string)

  /** `bcrypt.hash(password, 10)` with the salt the library picked. */
  function Hash(password: string, salt: Salt): (d: Digest)
    ensures d.rounds == BcryptRounds
    ensures Verify(password, d)
  {
    Digest(BcryptRounds, salt, password)
  }

  /** `bcrypt.compare(candidate, digest)`. */
  predicate Verify(candidate: string, d: Digest) {
    d.preimage == candidate
  }

  /** A digest accepts exactly the password it was made from, whatever the salt. */
  lemma VerifyHash(candidate: string, password: string, salt: Salt)
    ensures Verify(candidate, Hash(password, salt)) <==> candidate == password
  {
  }

  /** The `expiresIn: '1h'` lifetime of a session token, in seconds. */
  const SessionLifetime: int := 3600

  /** The claims of a signed JWT: `userId`, and the `iat`/`exp` that `jsonwebtoken` adds. */
  datatype SessionToken = SessionToken(userId: string, issuedAt: Time, expiresAt: Time)

  /** `jwt.sign({ userId }, JWT_SECRET, { expiresIn: '1h' })` at time `now`. */
  function Sign(userId: string, now: Time): (t: SessionToken)
    ensures t.userId == userId && t.issuedAt == now
    ensures t.expiresAt - t.issuedAt == SessionLifetime
  {
    SessionToken(userId, now, now + SessionLifetime)
  }

  /** How long a password-reset token stays redeemable: one hour, in seconds. */
  const ResetTokenLifetime: int := 3600

  /** The 32 bytes `crypto.randomBytes(32)` yields. */
  type Bytes32 = b: seq<byte> | |b| == 32 witness seq(32, _ => 0)

  /** `crypto.randomBytes(32).toString('hex')`: 64 lower-case hex digits, one-to-one in the bytes. */
  function ResetToken(random: Bytes32): (t: string)
    ensures |t| == 64
    ensures t != ""
    ensures forall k :: 0 <= k < |t| ==> IsHexDigit(t[k])
  {
    HexEncode(random)
  }

  /** Different random draws never give the same reset token. */
  lemma ResetTokenInjective(a: Bytes32, b: Bytes32)
    requires ResetToken(a) == ResetToken(b)
    ensures a == b
  {
    HexEncodeInjective(a, b);
  }
}

=== FILE: end_to_end.dfy ===
/** How the client pieces meet the server: what the forms send and what the user is shown back. */
module EndToEnd {
  import opened Wrappers
  import opened Text
  import opened Users
  import opened Server
  import opened ServerProofs
  import opened AuthService
  import opened Forms
  import opened ResetPasswordPage
  import opened SignupForm

  /** The body `signUp(name, email, password)` posts: `{ name, email, password }`. */
  function SignupRequestFor(name: string, email: string, password: string): SignupRequest {
    SignupRequest(Some(email), Some(password), Some(name))
  }

  /**
   * The form only calls `signUp` with a non-empty name, so an account created
   * from it stores that name: the server's local-part default is never used.
   */
  lemma FormNameSkipsServerDefault(s: Store, name: string, email: string, password: string, confirm: string, result: Completion<Json>, env: Env)
    requires CallsApi(HandleSignup(name, email, password, confirm, result))
    requires Signup(s, SignupRequestFor(name, email, password), env).response.status == 201
    ensures Signup(s, SignupRequestFor(name, email, password), env).store[|s|].name == Some(name)
  {
    SignUpCalledIffValid(name, email, password, confirm, result);
    SignupAppendsOneRecord(s, SignupRequestFor(name, email, password), env);
  }

  /**
   * Signing up with a taken email: the server answers 409 "User already
   * exists", but the form shows only the status line, whatever body the
   * server sent.
   */
  lemma ConflictShowsStatusLine(s: Store, name: string, email: string, password: string, env: Env, statusText: string, body: Option<string>, parse: Parser)
    requires name != "" && email != "" && password != ""
    requires EmailTaken(s, email) && !env.faults.load
    ensures
      var answer := Signup(s, SignupRequestFor(name, email, password), env).response;
      var http := HttpResponse(answer.status, statusText, body);
      && answer == UserExists
      && HandleSignup(name, email, password, password, HandleApiResponse(http, parse)) ==
           [SetBusy(true), CallSignUp(name, email, password), ToastError("Error: 409 " + statusText), SetBusy(false)]
  {
    SignupRejectsTakenEmail(s, SignupRequestFor(name, email, password), env);
    assert DecimalString(409) == "409" by {
      assert DecimalString(4) == "4";
      assert DecimalString(40) == "40";
    }
    var http := HttpResponse(409, statusText, body);
    assert StatusMessage(http) == "Error: 409 " + statusText by {
      assert "Error: " + "409" + " " == "Error: 409 ";
    }
  }

  /**
   * The reset page treats every non-empty token as valid without asking the
   * server, which may still refuse it, for instance when nobody holds it.
   */
  lemma PageTrustsAnyToken(s: Store, token: string, password: string, env: Env)
    requires token != "" && password != "" && !env.faults.load
    requires TokenUnused(s, token)
    ensures SettledTokenState(Some(token)) == Valid
    ensures ResetPassword(s, ResetRequest(Some(token), Some(password)), env) == Outcome(s, InvalidToken)
  {
    ResetRejectsUnknownToken(s, ResetRequest(Some(token), Some(password)), env);
  }
}

=== FILE: find.dfy ===
/** `Array.prototype.find`, used by the server's lookups and by the client's ordered form checks. */
module Find {
  import opened Wrappers

  /** `Array.prototype.find` by index: the first position whose element satisfies `p`. */
  function First<T>(s: seq<T>, p: T -> bool): (r: Option<nat>)
    ensures r.Some? ==> r.value < |s| && p(s[r.value])
    ensures r.Some? ==> forall j :: 0 <= j < r.value ==> !p(s[j])
    ensures r.None? ==> forall j :: 0 <= j < |s| ==> !p(s[j])
  {
    if |s| == 0 then None
    else if p(s[0]) then Some(0)
    else match First(s[1..], p)
      case None => None
      case Some(i) => Some(i + 1)
  }
}

=== FILE: forms.dfy ===
/** What a form handler does, as the list of effects it performs, and the ordered-check discipline the forms share. */
module Forms {
  import opened Wrappers
  import opened Find

  /** An observable effect of a form handler, in the order it happens. */
  datatype Effect =
    | ToastError(message: string)
    | ToastSuccess(message: string)
    | SetBusy(busy: bool)
    | Navigate(path: string)
    | CallSignUp(name: string, email: string, password: string)
    | CallResetPassword(token: string, password: string)

  /** One validation step: whether it rejects the input, and the message it shows. */
  datatype Check = Check(fails: bool, message: string)

  /** Run the checks in order and report the first that fails, if any. */
  function FirstFailure(checks: seq<Check>): (r: Option<string>)
    ensures r.None? <==> forall i :: 0 <= i < |checks| ==> !checks[i].fails
    ensures r.Some? ==> exists i :: 0 <= i < |checks| && checks[i].fails && checks[i].message == r.value &&
                                (forall j :: 0 <= j < i ==> !checks[j].fails)
  {
    match First(checks, (c: Check) => c.fails)
    case None => None
    case Some(i) => Some(checks[i].message)
  }

  /** The busy flag after the effects, starting from `initial`: the last `SetBusy` wins. */
  function BusyAfter(effects: seq<Effect>, initial: bool): bool
    decreases |effects|
  {
    if |effects| == 0 then initial
    else if effects[|effects| - 1].SetBusy? then effects[|effects| - 1].busy
    else BusyAfter(effects[..|effects| - 1], initial)
  }

  /** Whether the effects contain any backend call. */
  predicate CallsApi(effects: seq<Effect>) {
    exists k :: 0 <= k < |effects| && (effects[k].CallSignUp? || effects[k].CallResetPassword?)
  }

  /** The error messages both forms use. */
  const FillAllFields := "Please fill in all fields"
  const PasswordsDiffer := "Passwords do not match"
}

=== FILE: reset_password_page.dfy ===
/** The reset-password page: its token check on load and its submit handler. */
module ResetPasswordPage {
  import opened Wrappers
  import opened Text
  import opened Forms

  const TooShort := "Password must be at least 8 characters long"
  const MinPasswordLength: nat := 8
  const ResetDone := "Password has been reset successfully"

  /** `tokenValid`: `null` while validating, then `true` or `false`. */
  datatype TokenState = Validating | Valid | Invalid

  /**
   * The state the effect on `token` settles in: a missing or empty query
   * parameter is invalid at once; any other token becomes valid when the
   * timer fires, without asking the server.
   */
  function SettledTokenState(token: Option<string>): (t: TokenState)
    ensures t != Validating
    ensures t == Valid <==> Present(token)
  {
    if Present(token) then Valid else Invalid
  }

  /** The submit handler's checks, in the order it makes them. */
  function ResetChecks(password: string, confirm: string): seq<Check> {
    [ Check(password == "" || confirm == "", FillAllFields),
      Check(password != confirm, PasswordsDiffer),
      Check(|password| < MinPasswordLength, TooShort) ]
  }

  /** The submit handler's validation, as its chain of early returns. */
  function Validate(password: string, confirm: string): (r: Option<string>)
    ensures r.None? <==> password != "" && password == confirm && |password| >= MinPasswordLength
  {
    if password == "" || confirm == "" then Some(FillAllFields)
    else if password != confirm then Some(PasswordsDiffer)
    else if |password| < MinPasswordLength then Some(TooShort)
    else None
  }

  /** The early returns report exactly the first failing check; each message stands for its own check alone. */
  lemma ValidateIsFirstFailure(password: string, confirm: string)
    ensures Validate(password, confirm) == FirstFailure(ResetChecks(password, confirm))
    ensures Validate(password, confirm) == Some(FillAllFields) <==> password == "" || confirm == ""
    ensures Validate(password, confirm) == Some(PasswordsDiffer) <==>
      password != "" && confirm != "" && password != confirm
    ensures Validate(password, confirm) == Some(TooShort) <==>
      password != "" && password == confirm && |password| < MinPasswordLength
  {
    var checks := ResetChecks(password, confirm);
    var r := FirstFailure(checks);
    if r.Some? {
      var i :| 0 <= i < |checks| && checks[i].fails && checks[i].message == r.value &&
        (forall j :: 0 <= j < i ==> !checks[j].fails);
      if checks[0].fails {
        assert i == 0;
      } else if checks[1].fails {
        assert i == 1;
      } else {
        assert i == 2;
      }
    } else {
      assert !checks[0].fails && !checks[1].fails && !checks[2].fails;
    }
  }

  /**
   * `handleSubmit`: a failing check shows its message and stops; otherwise
   * the page goes busy and, when the timer fires, reports success, goes idle
   * and navigates home.
   */
  function Submit(password: string, confirm: string): (effects: seq<Effect>)
    ensures !CallsApi(effects)
    ensures Navigate("/") in effects <==> Validate(password, confirm).None?
    ensures SetBusy(true) in effects <==> Validate(password, confirm).None?
    ensures Validate(password, confirm).Some? ==> effects == [ToastError(Validate(password, confirm).value)]
    ensures !BusyAfter(effects, false)
  {
    match Validate(password, confirm)
    case Some(message) => [ToastError(message)]
    case None => [SetBusy(true), ToastSuccess(ResetDone), SetBusy(false), Navigate("/")]
  }
}

=== FILE: scenario_proofs.dfy ===
/** Properties that span several requests against the same store. */
module ScenarioProofs {
  import opened Wrappers
  import opened Crypto
  import opened Users
  import opened Server
  import opened ServerProofs

  /**
   * After a successful signup, logging in with the same credentials succeeds
   * with a token for that email, and any other password is refused.
   */
  lemma SignupThenLogin(s: Store, email: string, password: string, name: Option<string>, env: Env, later: Env, other: string)
    requires Signup(s, SignupRequest(Some(email), Some(password), name), env).response.status == 201
    requires !later.faults.load && !later.faults.crypto
    requires other != password && other != ""
    ensures
      var s' := Signup(s, SignupRequest(Some(email), Some(password), name), env).store;
      && Login(s', LoginRequest(Some(email), Some(password)), later) ==
           Response(200, LoginBody("Login successful", Sign(email, later.now)))
      && Login(s', LoginRequest(Some(email), Some(other)), later) == InvalidCredentials
  {
    var req := SignupRequest(Some(email), Some(password), name);
    var s' := Signup(s, req, env).store;
    SignupAppendsOneRecord(s, req, env);
    assert FindByEmail(s', email) == Some(|s|) by {
      assert !EmailTaken(s, email);
      assert forall j :: 0 <= j < |s| ==> s'[j].email != email;
    }
  }

  /**
   * The reset flow: a reset token issued for a known email is redeemable
   * before it expires; afterwards the new password logs in, the old one does
   * not, and the token cannot be used again.
   */
  lemma ForgotThenReset(s: Store, email: string, env: Env, newPassword: string, later: Env, oldPassword: string)
    requires Wellformed(s)
    requires email != "" && newPassword != "" && oldPassword != "" && oldPassword != newPassword
    requires EmailTaken(s, email)
    requires TokenUnused(s, ResetToken(env.random))
    requires env.faults == NoFaults && later.faults == NoFaults
    requires later.now < env.now + ResetTokenLifetime
    ensures
      var token := ResetToken(env.random);
      var s1 := ForgotPassword(s, Some(email), env).store;
      var o2 := ResetPassword(s1, ResetRequest(Some(token), Some(newPassword)), later);
      var s2 := o2.store;
      && o2.response == PasswordReset
      && Login(s2, LoginRequest(Some(email), Some(newPassword)), later).status == 200
      && Login(s2, LoginRequest(Some(email), Some(oldPassword)), later) == InvalidCredentials
      && ResetPassword(s2, ResetRequest(Some(token), Some(newPassword)), later).response == InvalidToken
  {
    var token := ResetToken(env.random);
    var i := FindByEmail(s, email).value;
    var s1 := ForgotPassword(s, Some(email), env).store;
    ForgotPasswordIssuesToken(s, email, env);
    ForgotPasswordKeepsWellformed(s, Some(email), env);
    var req := ResetRequest(Some(token), Some(newPassword));
    assert HoldsLiveToken(s1[i], token, later.now);
    assert FindLiveToken(s1, token, later.now) == Some(i) by {
      forall j | 0 <= j < i
        ensures !HoldsLiveToken(s1[j], token, later.now)
      {
        assert s1[j] == s[j];
      }
    }
    ResetPasswordEffect(s1, req, later);
    var s2 := ResetPassword(s1, req, later).store;
    assert FindByEmail(s2, email) == Some(i) by {
      assert forall j :: 0 <= j < i ==> s2[j] == s1[j] == s[j];
    }
    ResetIsSingleUse(s1, req, later, req, later);
  }

  /**
   * Signing in with Google twice for a new email creates one record on the
   * first callback and reuses it on the second.
   */
  lemma RepeatedGoogleLogin(s: Store, code: string, email: string, id: Option<string>, env: Env, later: Env)
    requires code != "" && email != ""
    requires !EmailTaken(s, email)
    requires env.faults == NoFaults && later.faults == NoFaults
    ensures
      var info := UserInfo(Some(email), id);
      var first := GoogleCallback(s, Some(code), info, env);
      var second := GoogleCallback(first.store, Some(code), info, later);
      && first.store == s + [User(email, None, None, id, None, None)]
      && second.store == first.store
      && second.redirect == Dashboard(Sign(email, later.now))
  {
    var info := UserInfo(Some(email), id);
    var s1 := GoogleCallback(s, Some(code), info, env).store;
    CallbackFindOrCreate(s, code, email, id, env);
    assert FindByEmail(s1, email) == Some(|s|) by {
      assert forall j :: 0 <= j < |s| ==> s1[j].email != email;
      assert s1[|s|].email == email;
    }
    CallbackFindOrCreate(s1, code, email, id, later);
  }

  /**
   * Signing in with Google on an email that already has a password links the
   * two: the password still logs in afterwards.
   */
  lemma GoogleLinkKeepsPassword(s: Store, code: string, email: string, id: Option<string>, password: string, env: Env, later: Env)
    requires email != "" && password != "" && code != ""
    requires env.faults == NoFaults && later.faults == NoFaults
    requires Login(s, LoginRequest(Some(email), Some(password)), later).status == 200
    ensures
      var s' := GoogleCallback(s, Some(code), UserInfo(Some(email), id), env).store;
      Login(s', LoginRequest(Some(email), Some(password)), later).status == 200
  {
    LoginSucceedsIff(s, LoginRequest(Some(email), Some(password)), later);
    var i := FindByEmail(s, email).value;
    var s' := GoogleCallback(s, Some(code), UserInfo(Some(email), id), env).store;
    CallbackFindOrCreate(s, code, email, id, env);
    assert |s'| == |s| && s'[i].email == email && s'[i].passwordHash == s[i].passwordHash;
    assert FindByEmail(s', email) == Some(i) by {
      assert forall j :: 0 <= j < i ==> s'[j] == s[j];
    }
  }
}

=== FILE: server.dfy ===
/**
 * The mutating endpoints of the authentication server as pure transitions of
 * the credential store. Each handler loads the whole store unless a required
 * field is missing (or, for the Google callback, the code, the exchange or the
 * email fails first), and answers. Login never changes the store; the others
 * change at most one record, or append one, and save only on the path that
 * makes that change. Here a handler takes the store and returns the store it
 * would have saved together with the HTTP answer.
 */
module Server {
  import opened Wrappers
  import opened Text
  import opened Crypto
  import opened Users

  /**
   * Which library calls fail during one request: reading the users file, a
   * bcrypt call or the synchronous `crypto.randomBytes`, writing the users
   * file. The awaited ones reject and the synchronous one throws; either way
   * the failure lands in the handler's catch-all.
   */
  datatype Faults = Faults(load: bool, crypto: bool, save: bool)

  const NoFaults := Faults(false, false, false)

  /**
   * What a handler takes from outside the store: the clock, the salt bcrypt
   * picks, the bytes `crypto.randomBytes(32)` returns, and the faults.
   */
  datatype Env = Env(now: Time, salt: Salt, random: Bytes32, faults: Faults)

  /** A JSON response body: `{ message }`, `{ error }`, or the login answer `{ message, token }`. */
  datatype Body =
    | Message(message: string)
    | Error(error: string)
    | LoginBody(message: string, token: SessionToken)

  datatype Response = Response(status: nat, body: Body)

  /** The store to save (the loaded one when nothing changes) and the answer. */
  datatype Outcome = Outcome(store: Store, response: Response)

  const ServerError := Response(500, Error("Server error"))
  const CredentialsRequired := Response(400, Error("Email and password are required"))
  const UserExists := Response(409, Error("User already exists"))
  const UserCreated := Response(201, Message("User created successfully"))
  const InvalidCredentials := Response(401, Error("Invalid email or password"))
  const EmailRequired := Response(400, Error("Email is required"))
  const ResetEmailSent := Response(200, Message("Reset email sent"))
  const ResetFieldsRequired := Response(400, Error("Token and password are required"))
  const InvalidToken := Response(400, Error("Invalid or expired token"))
  const PasswordReset := Response(200, Message("Password reset successful"))

  /** The fields of a request body; an absent field is `None`. */
  datatype SignupRequest = SignupRequest(email: Option<string>, password: Option<string>, name: Option<string>)
  datatype LoginRequest = LoginRequest(email: Option<string>, password: Option<string>)
  datatype ResetRequest = ResetRequest(token: Option<string>, password: Option<string>)

  /** `name || email.split('@')[0]`: the display name a signup stores. */
  function DisplayName(name: Option<string>, email: string): (r: string)
    ensures Present(name) ==> r == name.value
    ensures !Present(name) ==> r <= email && '@' !in r
    ensures !Present(name) && '@' in email ==> |r| < |email| && email[|r|] == '@'
    ensures !Present(name) && '@' !in email ==> r == email
  {
    if Present(name) then name.value else LocalPart(email)
  }

  /** The record a successful signup appends. */
  function PasswordUser(email: string, name: string, hash: Digest): User {
    User(email, Some(name), Some(hash), None, None, None)
  }

  /** POST /api/signup. */
  function Signup(s: Store, req: SignupRequest, env: Env): (o: Outcome)
    ensures o.response.status != 201 ==> o.store == s
    ensures o.response.status == 201 ==> |o.store| == |s| + 1 && o.store[..|s|] == s
  {
    if !Present(req.email) || !Present(req.password) then
      Outcome(s, CredentialsRequired)
    else if env.faults.load then
      Outcome(s, ServerError)
    else if EmailTaken(s, req.email.value) then
      Outcome(s, UserExists)
    else if env.faults.crypto || env.faults.save then
      Outcome(s, ServerError)
    else
      var email := req.email.value;
      var user := PasswordUser(email, DisplayName(req.name, email), Hash(req.password.value, env.salt));
      Outcome(s + [user], UserCreated)
  }

  /**
   * POST /api/login. It never writes the store, so only the answer is
   * returned. A record without a `passwordHash` makes `bcrypt.compare`
   * reject, which the catch-all turns into a 500.
   */
  function Login(s: Store, req: LoginRequest, env: Env): (r: Response)
    ensures r.status in {200, 400, 401, 500}
    ensures r.body.LoginBody? <==> r.status == 200
  {
    if !Present(req.email) || !Present(req.password) then
      CredentialsRequired
    else if env.faults.load then
      ServerError
    else
      match FindByEmail(s, req.email.value)
      case None => InvalidCredentials
      case Some(i) =>
        match s[i].passwordHash
        case None => ServerError
        case Some(digest) =>
          if env.faults.crypto then ServerError
          else if !Verify(req.password.value, digest) then InvalidCredentials
          else Response(200, LoginBody("Login successful", Sign(req.email.value, env.now)))
  }

  /** The record after a reset token was issued to it at `now`. */
  function WithResetToken(u: User, token: string, now: Time): (v: User)
    ensures v.resetToken == Some(token) && v.resetTokenExpiry == Some(now + ResetTokenLifetime)
    ensures v.email == u.email && v.name == u.name && v.passwordHash == u.passwordHash && v.googleId == u.googleId
  {
    u.(resetToken := Some(token), resetTokenExpiry := Some(now + ResetTokenLifetime))
  }

  /** POST /api/forgot-password. The token is drawn whether or not the email is known. */
  function ForgotPassword(s: Store, email: Option<string>, env: Env): (o: Outcome)
    ensures |o.store| == |s|
    ensures o.response.status in {200, 400, 500}
  {
    if !Present(email) then
      Outcome(s, EmailRequired)
    else if env.faults.load || env.faults.crypto then
      Outcome(s, ServerError)
    else
      match FindByEmail(s, email.value)
      case None => Outcome(s, ResetEmailSent)
      case Some(i) =>
        if env.faults.save then Outcome(s, ServerError)
        else Outcome(s[i := WithResetToken(s[i], ResetToken(env.random), env.now)], ResetEmailSent)
  }

  /** The record after its reset token was redeemed for a new password digest. */
  function WithNewPassword(u: User, hash: Digest): (v: User)
    ensures v.passwordHash == Some(hash) && v.resetToken.None? && v.resetTokenExpiry.None?
    ensures v.email == u.email && v.name == u.name && v.googleId == u.googleId
  {
    u.(passwordHash := Some(hash), resetToken := None, resetTokenExpiry := None)
  }

  /** POST /api/reset-password. */
  function ResetPassword(s: Store, req: ResetRequest, env: Env): (o: Outcome)
    ensures |o.store| == |s|
    ensures o.response.status != 200 ==> o.store == s
  {
    if !Present(req.token) || !Present(req.password) then
      Outcome(s, ResetFieldsRequired)
    else if env.faults.load then
      Outcome(s, ServerError)
    else
      match FindLiveToken(s, req.token.value, env.now)
      case None => Outcome(s, InvalidToken)
      case Some(i) =>
        if env.faults.crypto || env.faults.save then Outcome(s, ServerError)
        else Outcome(s[i := WithNewPassword(s[i], Hash(req.password.value, env.salt))], PasswordReset)
  }

  /**
   * What the two Google calls (code for access token, access token for
   * userinfo) produced: a failure of either, or the userinfo `email` and `id`.
   */
  datatype Exchange = ExchangeFailed | UserInfo(email: Option<string>, id: Option<string>)

  /** The error tags the callback puts in `/login?error=...`. */
  datatype OAuthError = NoCode | NoEmail | OAuthFailure

  /** Where the callback redirects the browser. */
  datatype Redirect = LoginError(error: OAuthError) | Dashboard(token: SessionToken)

  datatype CallbackOutcome = CallbackOutcome(store: Store, redirect: Redirect)

  /** The query value of an error redirect. */
  function ErrorTag(e: OAuthError): string {
    match e
    case NoCode => "no_code"
    case NoEmail => "no_email"
    case OAuthFailure => "oauth_error"
  }

  /** The URL of an error redirect. */
  function ErrorLocation(e: OAuthError): (url: string)
    ensures "/login?error=" <= url
  {
    "/login?error=" + ErrorTag(e)
  }

  /** The record the callback creates for an email it has not seen: `{ email, googleId }`. */
  function GoogleUser(email: string, googleId: Option<string>): User {
    User(email, None, None, googleId, None, None)
  }

  /** Whether find-or-create changes the store, and so calls `saveUsers`. */
  predicate ReconcileWrites(s: Store, email: string) {
    match FindByEmail(s, email)
    case None => true
    case Some(i) => !Present(s[i].googleId)
  }

  /** Find-or-create: add a record, link an unlinked one, or leave a linked one alone. */
  function Reconcile(s: Store, email: string, googleId: Option<string>): (r: Store)
    ensures !ReconcileWrites(s, email) ==> r == s
  {
    match FindByEmail(s, email)
    case None => s + [GoogleUser(email, googleId)]
    case Some(i) => if Present(s[i].googleId) then s else s[i := s[i].(googleId := googleId)]
  }

  /** GET /auth/google/callback, from the query `code` and what the Google calls returned. */
  function GoogleCallback(s: Store, code: Option<string>, exchange: Exchange, env: Env): (o: CallbackOutcome)
    ensures o.redirect.LoginError? ==> o.store == s
  {
    if !Present(code) then
      CallbackOutcome(s, LoginError(NoCode))
    else
      match exchange
      case ExchangeFailed => CallbackOutcome(s, LoginError(OAuthFailure))
      case UserInfo(email, id) =>
        if !Present(email) then
          CallbackOutcome(s, LoginError(NoEmail))
        else if env.faults.load || (ReconcileWrites(s, email.value) && env.faults.save) then
          CallbackOutcome(s, LoginError(OAuthFailure))
        else
          CallbackOutcome(Reconcile(s, email.value, id), Dashboard(Sign(email.value, env.now)))
  }
}

=== FILE: server_proofs.dfy ===
/** What each endpoint promises, one handler call at a time, and the store invariants they keep. */
module ServerProofs {
  import opened Wrappers
  import opened Text
  import opened Crypto
  import opened Users
  import opened Server

  // ----- POST /api/signup -----

  /** A missing or empty email or password is refused before the store is read. */
  lemma SignupRequiresCredentials(s: Store, req: SignupRequest, env: Env)
    requires !Present(req.email) || !Present(req.password)
    ensures Signup(s, req, env) == Outcome(s, CredentialsRequired)
  {
  }

  /** An email already in the store is a conflict and nothing is added. */
  lemma SignupRejectsTakenEmail(s: Store, req: SignupRequest, env: Env)
    requires Present(req.email) && Present(req.password) && !env.faults.load
    requires EmailTaken(s, req.email.value)
    ensures Signup(s, req, env) == Outcome(s, UserExists)
  {
  }

  /** Signup succeeds exactly when both fields are present, the email is new and no library call fails. */
  lemma SignupSucceedsIff(s: Store, req: SignupRequest, env: Env)
    ensures Signup(s, req, env).response.status == 201 <==>
      && Present(req.email) && Present(req.password)
      && !EmailTaken(s, req.email.value)
      && env.faults == NoFaults
    ensures Signup(s, req, env).response.status == 201 ==> Signup(s, req, env).response == UserCreated
  {
  }

  /**
   * A successful signup appends one record carrying the email, the display
   * name (the email's local part when no name was sent) and a digest that
   * accepts the password, and leaves every earlier record as it was.
   */
  lemma SignupAppendsOneRecord(s: Store, req: SignupRequest, env: Env)
    requires Signup(s, req, env).response.status == 201
    ensures
      var o := Signup(s, req, env);
      var email := req.email.value;
      && |o.store| == |s| + 1
      && (forall j :: 0 <= j < |s| ==> o.store[j] == s[j])
      && o.store[|s|].email == email
      && o.store[|s|].name == Some(if Present(req.name) then req.name.value else LocalPart(email))
      && o.store[|s|].passwordHash.Some?
      && (forall pw :: Verify(pw, o.store[|s|].passwordHash.value) <==> pw == req.password.value)
      && o.store[|s|].googleId.None?
      && o.store[|s|].resetToken.None? && o.store[|s|].resetTokenExpiry.None?
  {
  }

  /** The local-part default: the text before the first '@', or the whole email without one. */
  lemma SignupNameDefault(s: Store, email: string, password: string, name: Option<string>, env: Env)
    requires !Present(name)
    requires Signup(s, SignupRequest(Some(email), Some(password), name), env).response.status == 201
    ensures
      var stored := Signup(s, SignupRequest(Some(email), Some(password), name), env).store[|s|].name.value;
      && stored <= email && '@' !in stored
      && ('@' in email ==> email[|stored|] == '@')
      && ('@' !in email ==> stored == email)
  {
  }

  // ----- POST /api/login -----

  /** A missing or empty email or password is refused before the store is read. */
  lemma LoginRequiresCredentials(s: Store, req: LoginRequest, env: Env)
    requires !Present(req.email) || !Present(req.password)
    ensures Login(s, req, env) == CredentialsRequired
  {
  }

  /**
   * Login succeeds exactly when the record `find` returns for the email has a
   * digest accepting the password; the token then names that email and lives
   * one hour.
   */
  lemma LoginSucceedsIff(s: Store, req: LoginRequest, env: Env)
    ensures Login(s, req, env).status == 200 <==>
      && Present(req.email) && Present(req.password)
      && !env.faults.load && !env.faults.crypto
      && var found := FindByEmail(s, req.email.value);
      && found.Some?
      && s[found.value].passwordHash.Some?
      && Verify(req.password.value, s[found.value].passwordHash.value)
    ensures Login(s, req, env).status == 200 ==>
      var token := Login(s, req, env).body.token;
      && token.userId == req.email.value == s[FindByEmail(s, req.email.value).value].email
      && token.issuedAt == env.now
      && token.expiresAt == env.now + SessionLifetime
  {
  }

  /**
   * An unknown email and a wrong password get the same answer, so the
   * response does not reveal whether an account exists.
   */
  lemma LoginUnknownEmailLikeWrongPassword(s1: Store, s2: Store, req: LoginRequest, env: Env)
    requires Present(req.email) && Present(req.password) && !env.faults.load && !env.faults.crypto
    requires !EmailTaken(s1, req.email.value)
    requires
      var found := FindByEmail(s2, req.email.value);
      found.Some? && s2[found.value].passwordHash.Some? && !Verify(req.password.value, s2[found.value].passwordHash.value)
    ensures Login(s1, req, env) == Login(s2, req, env) == InvalidCredentials
  {
  }

  /** A bcrypt call that fails on a record with a digest ends in the catch-all. */
  lemma LoginBcryptFailure(s: Store, req: LoginRequest, env: Env)
    requires Present(req.email) && Present(req.password) && !env.faults.load && env.faults.crypto
    requires EmailTaken(s, req.email.value)
    ensures Login(s, req, env) == ServerError
  {
  }

  /** A record without a password digest (a Google-only account) never logs in by password. */
  lemma LoginWithoutPasswordHash(s: Store, req: LoginRequest, env: Env)
    requires Present(req.email) && Present(req.password) && !env.faults.load
    requires
      var found := FindByEmail(s, req.email.value);
      found.Some? && s[found.value].passwordHash.None?
    ensures Login(s, req, env) == ServerError
  {
  }

  // ----- POST /api/forgot-password -----

  /** A missing or empty email is refused before the store is read. */
  lemma ForgotPasswordRequiresEmail(s: Store, email: Option<string>, env: Env)
    requires !Present(email)
    ensures ForgotPassword(s, email, env) == Outcome(s, EmailRequired)
  {
  }

  /**
   * The answer does not depend on the store: a known and an unknown email
   * get the same response (when writing the file does not fail).
   */
  lemma ForgotPasswordAnswersAlike(s1: Store, s2: Store, email: Option<string>, env: Env)
    requires !env.faults.save
    ensures ForgotPassword(s1, email, env).response == ForgotPassword(s2, email, env).response
    ensures Present(email) && !env.faults.load && !env.faults.crypto ==>
      ForgotPassword(s1, email, env).response == ResetEmailSent
  {
  }

  /** An unknown email changes nothing. */
  lemma ForgotPasswordUnknownEmail(s: Store, email: string, env: Env)
    requires !EmailTaken(s, email)
    ensures ForgotPassword(s, Some(email), env).store == s
  {
  }

  /**
   * A known email: only the first record with that email changes, and it
   * gets a fresh token with expiry one hour from now, replacing any earlier
   * pair; its identity and credentials stay.
   */
  lemma ForgotPasswordIssuesToken(s: Store, email: string, env: Env)
    requires email != "" && EmailTaken(s, email) && env.faults == NoFaults
    ensures
      var o := ForgotPassword(s, Some(email), env);
      var i := FindByEmail(s, email).value;
      && o.response == ResetEmailSent
      && |o.store| == |s|
      && o.store[i].resetToken == Some(ResetToken(env.random))
      && o.store[i].resetTokenExpiry == Some(env.now + ResetTokenLifetime)
      && o.store[i].email == s[i].email && o.store[i].name == s[i].name
      && o.store[i].passwordHash == s[i].passwordHash && o.store[i].googleId == s[i].googleId
      && (forall j :: 0 <= j < |s| && j != i ==> o.store[j] == s[j])
  {
  }

  // ----- POST /api/reset-password -----

  /** A missing or empty token or password is refused before the store is read. */
  lemma ResetRequiresFields(s: Store, req: ResetRequest, env: Env)
    requires !Present(req.token) || !Present(req.password)
    ensures ResetPassword(s, req, env) == Outcome(s, ResetFieldsRequired)
  {
  }

  /**
   * A reset succeeds exactly when some record holds the token with an expiry
   * strictly after now and no library call fails.
   */
  lemma ResetPasswordSucceedsIff(s: Store, req: ResetRequest, env: Env)
    ensures ResetPassword(s, req, env).response.status == 200 <==>
      && Present(req.token) && Present(req.password)
      && env.faults == NoFaults
      && exists i :: 0 <= i < |s| && HoldsLiveToken(s[i], req.token.value, env.now)
  {
    if Present(req.token) && Present(req.password) && env.faults == NoFaults {
      if i :| 0 <= i < |s| && HoldsLiveToken(s[i], req.token.value, env.now) {
        assert FindLiveToken(s, req.token.value, env.now).Some?;
      }
    }
  }

  /**
   * A successful reset touches one record, the first holding the live token:
   * its digest now accepts exactly the new password and both token fields
   * are cleared; email, name and Google link stay, and so do all other records.
   */
  lemma ResetPasswordEffect(s: Store, req: ResetRequest, env: Env)
    requires ResetPassword(s, req, env).response.status == 200
    ensures
      var o := ResetPassword(s, req, env);
      var i := FindLiveToken(s, req.token.value, env.now).value;
      && o.response == PasswordReset
      && |o.store| == |s|
      && HoldsLiveToken(s[i], req.token.value, env.now)
      && o.store[i].passwordHash.Some?
      && (forall pw :: Verify(pw, o.store[i].passwordHash.value) <==> pw == req.password.value)
      && o.store[i].resetToken.None? && o.store[i].resetTokenExpiry.None?
      && o.store[i].email == s[i].email && o.store[i].name == s[i].name && o.store[i].googleId == s[i].googleId
      && (forall j :: 0 <= j < |s| && j != i ==> o.store[j] == s[j])
  {
  }

  /** A token nobody holds is refused. */
  lemma ResetRejectsUnknownToken(s: Store, req: ResetRequest, env: Env)
    requires Present(req.token) && Present(req.password) && !env.faults.load
    requires TokenUnused(s, req.token.value)
    ensures ResetPassword(s, req, env) == Outcome(s, InvalidToken)
  {
  }

  /**
   * A token at or past its expiry is refused with the very answer an unknown
   * token gets: the expiry comparison is strict.
   */
  lemma ResetRejectsExpiredToken(s: Store, req: ResetRequest, env: Env, i: nat)
    requires Present(req.token) && Present(req.password) && !env.faults.load
    requires DistinctResetTokens(s)
    requires i < |s| && s[i].resetToken == req.token
    requires s[i].resetTokenExpiry.Some? && s[i].resetTokenExpiry.value <= env.now
    ensures ResetPassword(s, req, env) == Outcome(s, InvalidToken)
  {
    forall j | 0 <= j < |s|
      ensures !HoldsLiveToken(s[j], req.token.value, env.now)
    {
      if j < i {
        assert s[j].resetToken != s[i].resetToken;
      } else if j > i {
        assert s[i].resetToken != s[j].resetToken;
      }
    }
  }

  /** After a successful reset nobody holds the token any more. */
  lemma ResetConsumesToken(s: Store, req: ResetRequest, env: Env)
    requires DistinctResetTokens(s)
    requires ResetPassword(s, req, env).response.status == 200
    ensures TokenUnused(ResetPassword(s, req, env).store, req.token.value)
  {
    var o := ResetPassword(s, req, env);
    var i := FindLiveToken(s, req.token.value, env.now).value;
    ResetPasswordEffect(s, req, env);
    forall j | 0 <= j < |o.store|
      ensures o.store[j].resetToken != Some(req.token.value)
    {
      if j < i {
        assert s[j].resetToken != s[i].resetToken;
      } else if j > i {
        assert s[i].resetToken != s[j].resetToken;
      }
    }
  }

  /** A reset token is redeemed at most once: presenting it again fails and changes nothing. */
  lemma ResetIsSingleUse(s: Store, req: ResetRequest, env: Env, again: ResetRequest, later: Env)
    requires DistinctResetTokens(s)
    requires ResetPassword(s, req, env).response.status == 200
    requires again.token == req.token
    ensures
      var s' := ResetPassword(s, req, env).store;
      var o := ResetPassword(s', again, later);
      && o.store == s'
      && o.response.status != 200
      && (Present(again.password) && !later.faults.load ==> o.response == InvalidToken)
  {
    ResetConsumesToken(s, req, env);
    var s' := ResetPassword(s, req, env).store;
    if Present(again.password) && !later.faults.load {
      ResetRejectsUnknownToken(s', again, later);
    }
  }

  // ----- GET /auth/google/callback -----

  /** The early exits redirect to their error page and leave the store alone. */
  lemma CallbackErrorExits(s: Store, code: Option<string>, exchange: Exchange, env: Env)
    ensures !Present(code) ==> GoogleCallback(s, code, exchange, env) == CallbackOutcome(s, LoginError(NoCode))
    ensures Present(code) && exchange.ExchangeFailed? ==>
      GoogleCallback(s, code, exchange, env) == CallbackOutcome(s, LoginError(OAuthFailure))
    ensures Present(code) && exchange.UserInfo? && !Present(exchange.email) ==>
      GoogleCallback(s, code, exchange, env) == CallbackOutcome(s, LoginError(NoEmail))
    ensures ErrorLocation(NoCode) == "/login?error=no_code"
    ensures ErrorLocation(NoEmail) == "/login?error=no_email"
    ensures ErrorLocation(OAuthFailure) == "/login?error=oauth_error"
  {
  }

  /**
   * Find-or-create: an unseen email gets a new password-less record; a
   * record without a Google id is linked; a linked record is left as it is.
   * Every success redirects with a token for the email.
   */
  lemma CallbackFindOrCreate(s: Store, code: string, email: string, id: Option<string>, env: Env)
    requires code != "" && email != "" && env.faults == NoFaults
    ensures
      var o := GoogleCallback(s, Some(code), UserInfo(Some(email), id), env);
      && o.redirect == Dashboard(Sign(email, env.now))
      && (!EmailTaken(s, email) ==> o.store == s + [User(email, None, None, id, None, None)])
      && (EmailTaken(s, email) ==>
            var i := FindByEmail(s, email).value;
            && |o.store| == |s|
            && (Present(s[i].googleId) ==> o.store == s)
            && (!Present(s[i].googleId) ==> o.store == s[i := s[i].(googleId := id)]))
  {
  }

  /** A record already linked to a Google id is never modified by the callback. */
  lemma CallbackNeverOverwritesGoogleId(s: Store, code: Option<string>, exchange: Exchange, env: Env, j: nat)
    requires j < |s| && Present(s[j].googleId)
    ensures
      var o := GoogleCallback(s, code, exchange, env);
      j < |o.store| && o.store[j] == s[j]
  {
  }

  // ----- store invariants -----

  /** Signup keeps emails unique, reset pairs paired and reset tokens distinct. */
  lemma SignupKeepsWellformed(s: Store, req: SignupRequest, env: Env)
    requires Wellformed(s)
    ensures Wellformed(Signup(s, req, env).store)
  {
  }

  /** Login never writes the store; forgot-password keeps the invariants given a fresh token. */
  lemma ForgotPasswordKeepsWellformed(s: Store, email: Option<string>, env: Env)
    requires Wellformed(s)
    ensures UniqueEmails(ForgotPassword(s, email, env).store)
    ensures forall i :: 0 <= i < |s| ==> ResetPaired(ForgotPassword(s, email, env).store[i])
    ensures TokenUnused(s, ResetToken(env.random)) ==> Wellformed(ForgotPassword(s, email, env).store)
  {
  }

  /** Reset keeps the invariants. */
  lemma ResetPasswordKeepsWellformed(s: Store, req: ResetRequest, env: Env)
    requires Wellformed(s)
    ensures Wellformed(ResetPassword(s, req, env).store)
  {
  }

  /** The callback keeps the invariants; in particular find-or-create never duplicates an email. */
  lemma GoogleCallbackKeepsWellformed(s: Store, code: Option<string>, exchange: Exchange, env: Env)
    requires Wellformed(s)
    ensures Wellformed(GoogleCallback(s, code, exchange, env).store)
  {
  }
}

=== FILE: signup_form.dfy ===
/** The signup form's submit handler. */
module SignupForm {
  import opened Wrappers
  import opened Forms
  import opened AuthService

  const AccountCreated := "Account created successfully!"

  /** The handler's checks, in the order it makes them. */
  function SignupChecks(name: string, email: string, password: string, confirm: string): seq<Check> {
    [ Check(name == "" || email == "" || password == "" || confirm == "", FillAllFields),
      Check(password != confirm, PasswordsDiffer) ]
  }

  /** The handler's validation, as its chain of early returns. There is no length rule. */
  function Validate(name: string, email: string, password: string, confirm: string): (r: Option<string>)
    ensures r.None? <==> name != "" && email != "" && password != "" && password == confirm
  {
    if name == "" || email == "" || password == "" || confirm == "" then Some(FillAllFields)
    else if password != confirm then Some(PasswordsDiffer)
    else None
  }

  /** The early returns report exactly the first failing check. */
  lemma ValidateIsFirstFailure(name: string, email: string, password: string, confirm: string)
    ensures Validate(name, email, password, confirm) == FirstFailure(SignupChecks(name, email, password, confirm))
    ensures Validate(name, email, password, confirm) == Some(PasswordsDiffer) <==>
      name != "" && email != "" && password != "" && confirm != "" && password != confirm
  {
    var checks := SignupChecks(name, email, password, confirm);
    var r := FirstFailure(checks);
    if r.Some? {
      var i :| 0 <= i < |checks| && checks[i].fails && checks[i].message == r.value &&
        (forall j :: 0 <= j < i ==> !checks[j].fails);
      if checks[0].fails {
        assert i == 0;
      } else if checks[1].fails {
        assert i == 1;
      }
    } else {
      assert !checks[0].fails && !checks[1].fails;
    }
  }

  /**
   * `handleSignup`, given how the `signUp` call settles: after validation the
   * form goes busy, calls `signUp(name, email, password)`, toasts the result
   * (the thrown error's message on failure), and always goes idle again.
   */
  function HandleSignup(name: string, email: string, password: string, confirm: string, result: Completion<Json>): (effects: seq<Effect>)
    ensures !BusyAfter(effects, false)
  {
    match Validate(name, email, password, confirm)
    case Some(message) => [ToastError(message)]
    case None =>
      var toast := match result
        case Normal(_) => ToastSuccess(AccountCreated)
        case Throw(m) => ToastError(m);
      [SetBusy(true), CallSignUp(name, email, password), toast, SetBusy(false)]
  }

  /**
   * `signUp` is called, once and with exactly the name, email and password,
   * precisely when the input passes validation; the confirmation is not sent
   * and the form is busy while the call is in flight.
   */
  lemma SignUpCalledIffValid(name: string, email: string, password: string, confirm: string, result: Completion<Json>)
    ensures
      var effects := HandleSignup(name, email, password, confirm, result);
      && (CallsApi(effects) <==> Validate(name, email, password, confirm).None?)
      && (CallsApi(effects) ==>
            && effects[1] == CallSignUp(name, email, password)
            && BusyAfter(effects[..1], false)
            && (forall k :: 0 <= k < |effects| && k != 1 ==> !effects[k].CallSignUp?))
      && (!CallsApi(effects) ==> effects == [ToastError(Validate(name, email, password, confirm).value)])
  {
    var effects := HandleSignup(name, email, password, confirm, result);
    if Validate(name, email, password, confirm).None? {
      assert effects[1].CallSignUp?;
    }
  }

  /** Unlike the reset page, any non-empty matching password is accepted, even one character long. */
  lemma NoMinimumLength(name: string, email: string, password: string)
    requires name != "" && email != "" && password != ""
    ensures Validate(name, email, password, password).None?
  {
  }
}

=== FILE: text.dfy ===
/** String helpers standing in for the JavaScript built-ins the source calls. */
module Text {
  import opened Wrappers

  /** A byte as returned by `crypto.randomBytes`. */
  type byte = b: int | 0 <= b < 256

  /**
   * JavaScript truthiness of an optional string field: an absent field
   * (`undefined` or `null`) and the empty string are both falsy.
   */
  predicate Present(field: Option<string>) {
    field.Some? && field.value != ""
  }

  /** `s.split('@')[0]`: the text before the first '@', or all of `s` when it has none. */
  function LocalPart(s: string): (r: string)
    ensures r <= s
    ensures '@' !in r
    ensures '@' in s ==> |r| < |s| && s[|r|] == '@'
    ensures '@' !in s ==> r == s
  {
    if |s| == 0 || s[0] == '@' then "" else [s[0]] + LocalPart(s[1..])
  }

  /** `needle` occurs in `s` starting at offset `i`. */
  ghost predicate OccursAt(s: string, needle: string, i: nat) {
    i + |needle| <= |s| && s[i..i + |needle|] == needle
  }

  /** `s.includes(needle)`: whether `needle` is a substring of `s`. */
  function Includes(s: string, needle: string): (r: bool)
    ensures r <==> exists i: nat :: OccursAt(s, needle, i)
    decreases |s|
  {
    if needle <= s then
      assert OccursAt(s, needle, 0);
      true
    else if |s| == 0 then
      false
    else
      var rest := Includes(s[1..], needle);
      ShiftOccurrence(s, needle);
      rest
  }

  /** An occurrence in `s` away from the start is an occurrence in `s[1..]`, and back. */
  lemma ShiftOccurrence(s: string, needle: string)
    requires |s| > 0 && !(needle <= s)
    ensures (exists i: nat :: OccursAt(s, needle, i)) <==> (exists i: nat :: OccursAt(s[1..], needle, i))
  {
    if i: nat :| OccursAt(s, needle, i) {
      assert i != 0;
      assert s[1..][i - 1..i - 1 + |needle|] == s[i..i + |needle|];
      assert OccursAt(s[1..], needle, i - 1);
    }
    if i: nat :| OccursAt(s[1..], needle, i) {
      assert s[1..][i..i + |needle|] == s[i + 1..i + 1 + |needle|];
      assert OccursAt(s, needle, i + 1);
    }
  }

  /** The decimal digit for `d`. */
  function Digit(d: nat): (c: char)
    requires d < 10
    ensures '0' <= c <= '9'
  {
    (48 + d) as char
  }

  /** The value of a decimal digit. */
  function DigitValue(c: char): nat
    requires '0' <= c <= '9'
  {
    c as int - 48
  }

  /** The number a string of decimal digits denotes, read most significant digit first. */
  function DecimalValue(s: string): nat
    requires forall k :: 0 <= k < |s| ==> '0' <= s[k] <= '9'
  {
    if |s| == 0 then 0 else DecimalValue(s[..|s| - 1]) * 10 + DigitValue(s[|s| - 1])
  }

  /**
   * How a template literal renders a non-negative integer: the decimal digits
   * that denote it, with no leading zero.
   */
  function DecimalString(n: nat): (r: string)
    ensures |r| > 0
    ensures forall k :: 0 <= k < |r| ==> '0' <= r[k] <= '9'
    ensures DecimalValue(r) == n
    ensures |r| > 1 ==> r[0] != '0'
  {
    if n < 10 then [Digit(n)]
    else
      var front := DecimalString(n / 10);
      var r := front + [Digit(n % 10)];
      assert r[..|r| - 1] == front;
      r
  }

  /** A character of the alphabet of `Buffer.toString('hex')`: a digit or a lower-case 'a' to 'f'. */
  predicate IsHexDigit(c: char) {
    '0' <= c <= '9' || 'a' <= c <= 'f'
  }

  /** The lower-case hex digit for `d`. */
  function HexDigit(d: nat): (c: char)
    requires d < 16
    ensures IsHexDigit(c)
  {
    if d < 10 then (48 + d) as char else (87 + d) as char
  }

  /** `Buffer.from(bytes).toString('hex')`: two lower-case hex digits per byte, high nibble first. */
  function HexEncode(bytes: seq<byte>): (r: string)
    ensures |r| == 2 * |bytes|
    ensures forall k :: 0 <= k < |r| ==> IsHexDigit(r[k])
  {
    if |bytes| == 0 then "" else [HexDigit(bytes[0] / 16), HexDigit(bytes[0] % 16)] + HexEncode(bytes[1..])
  }

  /** The value of a hex digit, inverse to `HexDigit`. */
  function HexValue(c: char): (v: nat)
    requires IsHexDigit(c)
    ensures v < 16 && HexDigit(v) == c
  {
    if c <= '9' then c as int - 48 else c as int - 87
  }

  /** Reads back what `HexEncode` wrote. */
  function HexDecode(s: string): (bytes: seq<byte>)
    requires |s| % 2 == 0
    requires forall k :: 0 <= k < |s| ==> IsHexDigit(s[k])
    ensures |bytes| == |s| / 2
  {
    if |s| == 0 then [] else [HexValue(s[0]) * 16 + HexValue(s[1])] + HexDecode(s[2..])
  }

  /** Decoding undoes encoding, so distinct byte strings give distinct hex strings. */
  lemma {:induction false} HexRoundTrip(bytes: seq<byte>)
    ensures HexDecode(HexEncode(bytes)) == bytes
  {
    if |bytes| > 0 {
      var b := bytes[0];
      var e := HexEncode(bytes);
      assert e == [HexDigit(b / 16), HexDigit(b % 16)] + HexEncode(bytes[1..]);
      assert HexValue(e[0]) == b / 16;
      assert HexValue(e[1]) == b % 16;
      assert e[2..] == HexEncode(bytes[1..]);
      HexRoundTrip(bytes[1..]);
    }
  }

  /** Distinct byte strings never encode to the same hex string. */
  lemma HexEncodeInjective(a: seq<byte>, b: seq<byte>)
    requires HexEncode(a) == HexEncode(b)
    ensures a == b
  {
    HexRoundTrip(a);
    HexRoundTrip(b);
  }
}

=== FILE: users.dfy ===
/** User records, the credential store and its invariants. */
module Users {
  import opened Wrappers
  import opened Crypto
  import opened Find

  /**
   * One element of the users array. `name` is absent for accounts created
   * through Google; `passwordHash` is absent until a password is set;
   * `resetToken`/`resetTokenExpiry` are present while a reset is pending.
   */
  datatype User = User(
    email: string,
    name: Option<string>,
    passwordHash: Option<Digest>,
    googleId: Option<string>,
    resetToken: Option<string>,
    resetTokenExpiry: Option<Time>)

  /** The whole users array as `loadUsers` returns it and `saveUsers` writes it. */
  type Store = seq<User>

  /** `users.some(u => u.email === email)` */
  predicate EmailTaken(s: Store, email: string) {
    exists i | 0 <= i < |s| :: s[i].email == email
  }

  /** `users.find(u => u.email === email)`, as the position of the record found. */
  function FindByEmail(s: Store, email: string): (r: Option<nat>)
    ensures r.Some? ==> r.value < |s| && s[r.value].email == email
    ensures r.Some? ==> forall j :: 0 <= j < r.value ==> s[j].email != email
    ensures r.None? <==> !EmailTaken(s, email)
  {
    First(s, (u: User) => u.email == email)
  }

  /**
   * The reset-password lookup: `u.resetToken === token`, an expiry is
   * present, and it lies strictly after `now`.
   */
  predicate HoldsLiveToken(u: User, token: string, now: Time) {
    u.resetToken == Some(token) && u.resetTokenExpiry.Some? && u.resetTokenExpiry.value > now
  }

  /** The first record holding `token` unexpired at `now`. */
  function FindLiveToken(s: Store, token: string, now: Time): (r: Option<nat>)
    ensures r.Some? ==> r.value < |s| && HoldsLiveToken(s[r.value], token, now)
    ensures r.Some? ==> forall j :: 0 <= j < r.value ==> !HoldsLiveToken(s[j], token, now)
    ensures r.None? <==> forall j :: 0 <= j < |s| ==> !HoldsLiveToken(s[j], token, now)
  {
    First(s, (u: User) => HoldsLiveToken(u, token, now))
  }

  /** No two records share an email. */
  ghost predicate UniqueEmails(s: Store) {
    forall i, j :: 0 <= i < j < |s| ==> s[i].email != s[j].email
  }

  /** The reset token and its expiry are set together and cleared together. */
  predicate ResetPaired(u: User) {
    u.resetToken.Some? <==> u.resetTokenExpiry.Some?
  }

  /** No two records hold the same pending reset token. */
  ghost predicate DistinctResetTokens(s: Store) {
    forall i, j :: 0 <= i < j < |s| && s[i].resetToken.Some? ==> s[i].resetToken != s[j].resetToken
  }

  /** `token` is held by no record: the freshness a new random token is assumed to have. */
  ghost predicate TokenUnused(s: Store, token: string) {
    forall i :: 0 <= i < |s| ==> s[i].resetToken != Some(token)
  }

  /** The invariants every handler keeps. */
  ghost predicate Wellformed(s: Store) {
    && UniqueEmails(s)
    && (forall i :: 0 <= i < |s| ==> ResetPaired(s[i]))
    && DistinctResetTokens(s)
  }
}

=== FILE: wrappers.dfy ===
/** Optional values and JavaScript-style completions shared by the server and client models. */
module Wrappers {

  /** A value that may be absent: `undefined`/`null` in the JavaScript source is `None`. */
  datatype Option<+T> = None | Some(value: T) {

    /** The value, or `default` when absent. */
    function GetOr(default: T): T {
      match this
      case Some(v) => v
      case None => default
    }
  }

  /**
   * How a JavaScript block finishes: normally with a value, or by throwing an
   * `Error` whose `message` is recorded.
   */
  datatype Completion<+T> = Normal(value: T) | Throw(message: string) {

    /** `try { this } catch (e) { handler(e.message) }` */
    function Catch(handler: string -> Completion<T>): Completion<T> {
      match this
      case Normal(_) => this
      case Throw(m) => handler(m)
    }
  }
}
